=== FILE: README.md ===
# Asset listing and certificate eligibility, in Dafny

This project models two pieces of pure logic from a course-authoring and learning platform.

**Asset listing (`cms/djangoapps/contentstore/views/assets.py`).** These helpers turn the query string of an asset-listing request into a document-store query and shape the reply. They cover:

- the request defaults and the `int()` conversion of `page` and `page_size`;
- the choice between an HTML and a JSON response;
- the mapping of the sort name and direction onto MongoDB fields and pymongo directions;
- page clamping and first-index arithmetic;
- the second query for the final page when the requested page lies past the end;
- the `$where` JavaScript filter built from the file-type → extensions table;
- the thumbnail key and `locked` default of each row;
- the upload size limit.

**Certificate eligibility (`openedx/core/djangoapps/certificates/api.py`).** These predicates decide three things:

- whether certificates are generated automatically, from two switches and the course's pacing;
- whether certificates are viewable, from display settings and an availability date compared with the current time;
- whether the "View Certificate" button and the available-date field are shown.

Modules:

| module | file | content |
|---|---|---|
| `Wrappers` | wrappers.dfy | `Option`, `Result` |
| `Text` | text.dfy | `join`, `split`, ASCII `lower`, substring test, with their round trips |
| `PyInt` | pyint.dfy | Python 2 `int(text)` and `str(n)`, with `int(str(n)) == n` |
| `AssetErrors` | asset_errors.dfy | the exceptions the helpers raise, as values |
| `AssetRequest` | asset_request.dfy | defaults, request parsing, response format, sort specification |
| `AssetFilter` | asset_filter.dfy | the `$where` filter |
| `AssetPaging` | asset_paging.dfy | pages, final-page requery, rows, `_assets_json` |
| `AssetUpload` | asset_upload.dfy | upload size check and its message |
| `CertificatesApi` | certificates_api.dfy | the certificate predicates |

A Python exception becomes a `Failure` of a `Result`, not a precondition:

- `int()` of a non-number (ValueError);
- `extend(None)` for an unknown file type (TypeError);
- a thumbnail location too short to index (IndexError);
- an undefined name (NameError).

The document store is a function parameter `fetch` of `_assets_json`. Properties that need a well-behaved store assume one in the lemma's hypothesis (`ServesWindows`, for the filter and sort of the listing at hand), never in the model itself. The switches, the course fields, the clock and the certificate lookup are inputs to the certificate predicates.

## Model

| member | source | states |
|---|---|---|
| Text.Split | cms/djangoapps/contentstore/views/assets.py:207-209 | `s.split(',')` yields one more piece than there are commas, and no piece contains a comma |
| Text.JoinSplit | cms/djangoapps/contentstore/views/assets.py:207-209 | joining the pieces of a split with the separator gives back the requested filter string |
| Text.SplitJoin | cms/djangoapps/contentstore/views/assets.py:207-209 | a comma-joined list of comma-free type names splits back into exactly those names, in order |
| Text.JoinLength | cms/djangoapps/contentstore/views/assets.py:229-233 | a join of n ≥ 1 expressions consists of the expressions and exactly n − 1 separators |
| PyInt.ParseIntOfString | cms/djangoapps/contentstore/views/assets.py:160-161 | `int(str(n)) == n` for every integer, so a page number a client writes is read back unchanged |
| PyInt.ParseInt | cms/djangoapps/contentstore/views/assets.py:160-161 | `int()`: empty or white-space-only text and a bare sign raise ValueError; a plain digit string reads as its decimal value; a negative result needs a leading minus |
| PyInt.ParseIntRejectsNonDigit | cms/djangoapps/contentstore/views/assets.py:160-161 | `int()` raises ValueError for text holding any non-digit after the stripped white space and an optional leading sign: letters, a decimal point, trailing junk |
| PyInt.ParseIntPadded | cms/djangoapps/contentstore/views/assets.py:160-161 | `int()` ignores ASCII white space before and after the number |
| PyInt.ParseIntPlusSign | cms/djangoapps/contentstore/views/assets.py:160-161 | `int()` accepts a leading `+` on a non-negative number |
| AssetRequest.IntParameterOfString | cms/djangoapps/contentstore/views/assets.py:160-161 | a page or page size written by `str` and placed in the GET parameters is read back as that integer, whatever else the query string holds |
| AssetRequest.ParseRequest | cms/djangoapps/contentstore/views/assets.py:157-170 | `_parse_request_to_dictionary` with `_get_requested_attribute` (the helpers `IntParameter` and `StrParameter`): parsing fails exactly when a supplied `page` or `page_size` is not an integer. A bad `page` is the error reported, and a bad `page_size` after a good `page` is reported as itself. On success the page and page size are the parsed values or 0 and 50. Sort, direction and asset type are the GET value or else their default |
| AssetRequest.ParseRequestDefaults | cms/djangoapps/contentstore/views/assets.py:33-39 | a request with none of the parameters gets page 0, page size 50, sort `date_added`, empty direction, no asset type |
| AssetRequest.ParseEncodedRequest | cms/djangoapps/contentstore/views/assets.py:157-165 | every option written into a query string is parsed back to itself |
| AssetRequest.ResponseFormat | cms/djangoapps/contentstore/views/assets.py:80-82 | the format is never empty; a non-empty GET `format` wins; otherwise a non-empty POST `format`; otherwise `html` |
| AssetRequest.IsJsonRequested | cms/djangoapps/contentstore/views/assets.py:84-86 | JSON exactly when the format is `json`, or there is no Accept header, or the Accept header contains `application/json`; HTML otherwise |
| AssetRequest.ShortAcceptIsNotJson | cms/djangoapps/contentstore/views/assets.py:84-86 | a non-`json` format with an Accept header too short to name the JSON media type is answered in HTML |
| AssetRequest.AcceptNamingJson | cms/djangoapps/contentstore/views/assets.py:84-86 | an Accept header with `application/json` anywhere in it gets JSON, whatever the format |
| AssetRequest.JsonFormatWins | cms/djangoapps/contentstore/views/assets.py:80-86 | a GET `format=json` gets JSON whatever the POST data and the Accept header |
| AssetRequest.PageLoadIsHtml | cms/djangoapps/contentstore/views/assets.py:80-86 | a request naming no format, from a client whose Accept header does not mention `application/json`, has format `html` and is answered in HTML |
| AssetRequest.MongoSortField | cms/djangoapps/contentstore/views/assets.py:243-251 | `date_added` ↦ `uploadDate`, `display_name` ↦ `displayname`, every other name ↦ itself; the result is never a client alias |
| AssetRequest.MongoSortFieldIdempotent | cms/djangoapps/contentstore/views/assets.py:243-251 | mapping a field name twice is the same as mapping it once |
| AssetRequest.SortDirectionOf | cms/djangoapps/contentstore/views/assets.py:254-259 | ascending exactly when the direction is `asc` in any mixture of cases; descending otherwise, including the empty default |
| AssetRequest.SortTypeAndDirection | cms/djangoapps/contentstore/views/assets.py:236-240 | always a one-element list. Its field is the store field of the requested sort, never a client alias. Its direction is ascending exactly for `asc` |
| AssetRequest.DefaultSortIsNewestFirst | cms/djangoapps/contentstore/views/assets.py:33-39 | the default sort is `[("uploadDate", DESCENDING)]`, with DESCENDING = −1 |
| AssetFilter.ExtensionsForFileTypes | cms/djangoapps/contentstore/views/assets.py:212-220 | succeeds exactly when every requested type is in the table; otherwise fails naming the first unknown type |
| AssetFilter.ExtensionsOfConcatenation | cms/djangoapps/contentstore/views/assets.py:212-220 | the extensions of `a + b` are those of `a` followed by those of `b`, so they follow the order of the requested types |
| AssetFilter.ExtensionsOfAllTypes | cms/djangoapps/contentstore/views/assets.py:182-185 | asking for every key of the table never fails and yields every extension, in table order |
| AssetFilter.Comparisons | cms/djangoapps/contentstore/views/assets.py:223-226 | one JavaScript comparison per extension, in order; each one contains the operator and its extension |
| AssetFilter.WhereForOther | cms/djangoapps/contentstore/views/assets.py:182-189 | `OTHER` never fails: its `$where` text is the ` && ` join of one `!=` comparison per extension of the table, in table order, and contains each of them |
| AssetFilter.WhereFilter | cms/djangoapps/contentstore/views/assets.py:229-233 | the filter has the single key `$where`. Its text contains every expression, and its length is that of the expressions plus one separator between each pair |
| AssetFilter.WhereForFiltersAsWritten | cms/djangoapps/contentstore/views/assets.py:192-199 | as written every request fails: with the unknown type when one is named, and otherwise with NameError for the undefined name |
| AssetFilter.WhereForFilters | cms/djangoapps/contentstore/views/assets.py:192-199 | with the name corrected, the request fails exactly when the extensions cannot be collected, with their error; otherwise the `$where` text contains one `==` comparison per collected extension |
| AssetFilter.FilterParametersAsWritten | cms/djangoapps/contentstore/views/assets.py:173-179 | as written, `OTHER` gives the corrected filter, and every other request fails, with NameError whenever all its types are known |
| AssetFilter.UndefinedNameBreaksKnownTypes | cms/djangoapps/contentstore/views/assets.py:192-199 | as written the filter agrees with the corrected one exactly for `OTHER` and for requests naming an unknown type |
| AssetFilter.FilterParameters | cms/djangoapps/contentstore/views/assets.py:173-199 | the result has the single key `$where`. `OTHER` gives one `!=` per table extension joined by ` && `. Otherwise the request is split on commas. It fails exactly when some type is unknown. On success it gives one `==` per collected extension joined by ` \|\| ` |
| AssetFilter.SelectedTypesFilter | cms/djangoapps/contentstore/views/assets.py:192-199 | selecting several known types gives one `==` comparison per extension of those types, in the order of the types |
| AssetFilter.UnknownTypeRaises | cms/djangoapps/contentstore/views/assets.py:216-218 | a filter naming a type missing from the table fails with that type |
| AssetFilter.UndefinedNameCounterexample | cms/djangoapps/contentstore/views/assets.py:196 | for the filter `Images`, the code as written fails, while the corrected one yields the `==` comparison for `image/png` |
| AssetPaging.CurrentPage | cms/djangoapps/contentstore/views/assets.py:262-264 | the page is the request clamped at 0: never negative, never below the request, and equal to either the request or 0 |
| AssetPaging.FirstAssetIndex | cms/djangoapps/contentstore/views/assets.py:267-269 | the first index of a non-negative page is non-negative; for a positive page size it is non-negative exactly for a non-negative page |
| AssetPaging.PagesAreAdjacent | cms/djangoapps/contentstore/views/assets.py:267-269 | each page starts exactly one page size after the previous one |
| AssetPaging.FirstIndexNonNegative | cms/djangoapps/contentstore/views/assets.py:267-269 | with a non-negative page size, the clamped page's first index is ≥ 0 |
| AssetPaging.FinalPage | cms/djangoapps/contentstore/views/assets.py:285-287 | for total ≥ 1, the final page starts below total and above total − page size − 1; for total 0 it is page −1 |
| AssetPaging.ThumbnailAssetKey | cms/djangoapps/contentstore/views/assets.py:441-450 | no key for a missing or empty thumbnail location; IndexError for one of 1–4 elements; otherwise the course's `thumbnail` key named by element 4 |
| AssetPaging.ThumbnailOfStoredLocation | cms/djangoapps/contentstore/views/assets.py:441-450 | a stored location `(tag, org, course, category, name, …)` yields the `thumbnail` key of its name |
| AssetPaging.IsLocked | cms/djangoapps/contentstore/views/assets.py:295 | an asset is locked exactly when its `locked` field is present and true |
| AssetPaging.AssetRows | cms/djangoapps/contentstore/views/assets.py:290-308 | one row per asset, in store order. Each row carries the asset's name, content type, upload date, key, thumbnail key and lock state. The listing fails exactly when some thumbnail key fails |
| AssetPaging.PageQuery | cms/djangoapps/contentstore/views/assets.py:272-281 | the query for a page starts at its first index and asks for one page size with the request's sort. A missing or empty filter is sent as none, and a non-empty filter is sent unchanged |
| AssetPaging.RequestedFilter | cms/djangoapps/contentstore/views/assets.py:115-118 | no filter, successfully, exactly when the asset type is empty. Otherwise it is the filter for that type and fails exactly as that filter fails |
| AssetPaging.RequestedFilterAsWritten | cms/djangoapps/contentstore/views/assets.py:115-118 | as written: no filter for an empty asset type; `OTHER` gets the same filter as the corrected model; every other non-empty type fails with the as-written filter's error: the TypeError of the first unknown type, otherwise NameError |
| AssetPaging.Respond | cms/djangoapps/contentstore/views/assets.py:141-152 | succeeds exactly when every row can be built. The response starts at the given index and ends after the returned assets. It reports the given page, the store's total, the rows of the returned assets, and the request's page size and sort |
| AssetPaging.PageListing | cms/djangoapps/contentstore/views/assets.py:120-152 | See the note after this table. |
| AssetPaging.AssetsJson | cms/djangoapps/contentstore/views/assets.py:106-154 | an unparsable request fails, and so does a request whose asset-type filter fails. Otherwise the response is the paged listing of the parsed options and filter, with no filter exactly for an empty asset type |
| AssetPaging.PageListingInRange | cms/djangoapps/contentstore/views/assets.py:133-141 | against a store that answers every query with the listing's own filter and sort from one non-empty sequence of assets, and a positive page size, the listed page starts inside the listing, is not empty and ends by its end |
| AssetPaging.ListedPageInRange | cms/djangoapps/contentstore/views/assets.py:106-154 | the same for a whole request, against a store consistent for the filter and sort the request asks for |
| AssetPaging.PageListingAsWritten | cms/djangoapps/contentstore/views/assets.py:120-152 | as written: the final page is requeried whenever the page size is positive and the first index is at or past the total, an empty listing included. The response still reports the clamped requested page `CurrentPage(page)` and its start index, with the requeried rows and total, and the requested page size and sort. The listing succeeds whenever the store's assets all convert to rows |
| AssetPaging.AssetsJsonAsWritten | cms/djangoapps/contentstore/views/assets.py:106-154 | as written: a parse failure fails, and so does a failing as-written filter. Otherwise the response is the as-written listing of the parsed options and that filter |
| AssetPaging.RequeryReportsStaleWindow | cms/djangoapps/contentstore/views/assets.py:133-141 | as written, against a store consistent for the listing's filter and sort, with assets, every requery reports a window that starts at or past the total and ends beyond it |
| AssetPaging.StalePageCounterexample | cms/djangoapps/contentstore/views/assets.py:137 | ten assets, five per page, page 5 requested: as written the response says page 5 and indices 25–30; corrected it says page 1 and indices 5–10 |
| AssetPaging.EmptyListingCounterexample | cms/djangoapps/contentstore/views/assets.py:135-136 | no assets, default request: as written a second query is sent from index −50; corrected there is one query and page 0 |
| AssetUpload.FileTooLargeMessageAsWritten | cms/djangoapps/contentstore/views/assets.py:403-405 | as written the message is `None` |
| AssetUpload.FileTooLargeMessage | cms/djangoapps/contentstore/views/assets.py:406-415 | the intended message names the file, the limit in megabytes and the help URL |
| AssetUpload.CheckUploadFileSizeAsWritten | cms/djangoapps/contentstore/views/assets.py:392-400 | rejects exactly files strictly larger than MAX_MB · 1000² bytes, always with status 413 and no message |
| AssetUpload.CheckUploadFileSize | cms/djangoapps/contentstore/views/assets.py:392-400 | rejects exactly files strictly larger than MAX_MB · 1000² bytes, with status 413 and a message naming the file |
| AssetUpload.UploadLimitBoundary | cms/djangoapps/contentstore/views/assets.py:396-398 | a file of exactly the limit is accepted, one byte more is rejected, and rejection is monotone in size |
| AssetUpload.MissingMessageCounterexample | cms/djangoapps/contentstore/views/assets.py:405 | for a 2 000 001-byte file under a 2 MB limit, the code as written answers 413 with no message, while the corrected check has one |
| CertificatesApi.AutoGenerationEnabled | openedx/core/djangoapps/certificates/api.py:18-22 | automatic generation is off exactly when both switches are off |
| CertificatesApi.AutoGenerationEnabledForCourse | openedx/core/djangoapps/certificates/api.py:25-36 | enabled exactly when the switch for the course's pacing is on; this implies generation is enabled globally |
| CertificatesApi.OtherSwitchIrrelevant | openedx/core/djangoapps/certificates/api.py:25-36 | flipping the switch for the other pacing does not change the answer |
| CertificatesApi.FeatureEnabledTestCases | openedx/core/djangoapps/certificates/tests/test_api.py:52-72 | the four switch combinations and the five per-course cases of the feature tests |
| CertificatesApi.EnabledAndSelfPaced | openedx/core/djangoapps/certificates/api.py:39-42 | true exactly for an instructor-paced course with the instructor-paced switch on, despite the name |
| CertificatesApi.CanShowCertificateAvailableDateField | openedx/core/djangoapps/certificates/api.py:99-100 | shown exactly for an instructor-paced course with the instructor-paced switch on; this implies generation is enabled for the course |
| CertificatesApi.AvailableDateFieldTestCases | openedx/core/djangoapps/certificates/tests/test_api.py:92-104 | the four cases of the available-date-field test |
| CertificatesApi.HasValidCertificateAsWritten | openedx/core/djangoapps/certificates/api.py:53-59 | as written the answer is the certificate's own validity |
| CertificatesApi.ValidityIgnoresEnrollment | openedx/core/djangoapps/certificates/api.py:57-59 | as written neither the enrollment mode nor the set of verified modes changes the answer |
| CertificatesApi.HasValidCertificate | openedx/core/djangoapps/certificates/api.py:45-56 | as documented: a valid certificate of an enrollment whose mode is one of the verified certificate modes (`enrollment_is_verified`, the helper `EnrollmentIsVerified`) |
| CertificatesApi.AuditEnrollmentCounterexample | openedx/core/djangoapps/certificates/api.py:57-59 | an audit learner with a valid certificate: as written true, as documented false |
| CertificatesApi.CertificatesViewable | openedx/core/djangoapps/certificates/api.py:62-83 | See the note after this table. |
| CertificatesApi.ViewableMonotoneInTime | openedx/core/djangoapps/certificates/api.py:73-77 | once certificates are viewable they remain viewable at every later time, the course unchanged |
| CertificatesApi.CanShowViewCertificateButton | openedx/core/djangoapps/certificates/api.py:86-96 | with both switches off the button shows exactly for a valid certificate; with either on, exactly for a valid certificate when certificates are viewable; showing always implies validity |
| CertificatesApi.SelfPacedButtonTestCases | openedx/core/djangoapps/certificates/tests/test_api.py:106-133 | with `has_valid_certificate` as documented: in a self-paced course, for either feature setting, the button shows exactly for a downloadable certificate of a verified enrollment |
| CertificatesApi.SelfPacedButtonAsWritten | openedx/core/djangoapps/certificates/api.py:53-59 | with `has_valid_certificate` as written, the same course shows the button for every downloadable certificate, audit enrollments included |

Note on `AssetPaging.PageListing`. It issues one query, or two when the page size is positive and the first index is at or past a non-zero total. The first query starts at the clamped page's index. The second query starts at the final page's index. Every query carries the page size, the sort and the filter, with an empty filter sent as none. The response reports the page of its last query: the final page after a requery, the clamped page otherwise. Its start is that query's start. Its end is the start plus the number of returned assets. Its rows are the rows of those assets. Its total comes from the last reply. The listing succeeds whenever every asset the store returns converts to a row.

Note on `CertificatesApi.CertificatesViewable`. Certificates are viewable exactly when at least one of these holds:

- the course is self-paced;
- the display behaviour is `early_with_info` or `early_no_info`;
- `show_before_end` is set;
- the available date is present and not after now;
- the available date is absent and the course has ended.

## Left out

- HTTP and framework plumbing: `assets_handler` dispatch, the decorators and permission check, `_asset_index`, `_update_asset`, `JsonResponse` and template rendering.
- The upload pipeline (`_upload_asset`, `_check_course_exists`, `_get_file_metadata_as_dictionary`, `get_file_size`, `_get_file_content_and_path`, `_check_thumbnail_uploaded`, thumbnail generation), `delete_asset` with the trashcan and `_delete_thumbnail`, and `del_cached_content`: these are side effects on stores whose code is not part of this model. As a consequence, the discarded 413 response at `assets.py:327` (the upload goes on after a rejection) is noted here but not modelled.
- `_get_asset_json`: URL and date formatting are delegated to `StaticContent`, `settings` and `get_default_time_display`, which are not part of this model. A row is the tuple of arguments passed to it.
- The document store (`contentstore().get_all_content_for_course`) is not part of this model. It is a parameter. Its behaviour for a zero, negative or out-of-range start or limit is unknown. `ServesWindows` describes a store that answers the queries of one filter and one sort from one sequence of assets. The range lemmas assume it only for the filter and sort of the listing they are about; how a real store filters and sorts is not modelled.
- AssetPaging.FinalPage: Python 2's `math.floor` returns a float, so `int(math.floor((total - 1) / size))` at `assets.py:287` is exact while `(total - 1) / size` is below 2**53. The model computes on unbounded integers and does not model that rounding.
- PyInt.ParseInt: Python 2's `int()` also accepts white space between the sign and the digits, non-ASCII digits and Unicode white space. These forms are not modelled.
- Text.Lower: only ASCII letters are lower-cased. Non-ASCII case mapping is not modelled.
- `FILES_AND_UPLOAD_TYPE_FILTERS` is a settings value. It is a parameter: an ordered list of (type, extensions) pairs with distinct keys, whose order is the dictionary's iteration order.
- Translation with `_()` is taken to be the identity.
- Certificates: these are inputs, because their code is not part of this model:
  - the switch lookups;
  - `course.has_ended()` (the `hasEnded` field);
  - `GeneratedCertificate.VERIFIED_CERTS_MODES` (a set parameter);
  - `CourseEnrollment.enrollment_mode_for_user`;
  - `GeneratedCertificate.certificate_for_student` and `is_valid()` (a validity bool).

  The `print` statements are dropped.
- The view-button tests call `can_show_view_certificate_button(course, certificate)`, while the code takes `(student, course)`. The model follows the code. The instructor-paced rows with `days(0)` depend on whether `has_ended()` is strict, which is not part of this model, so they are not encoded.
- `video_config/admin.py`, the two certificate migrations and `test_tasks.py` are declarative registration, schema changes and mocked task tests. None of them is pure logic.

## Findings

| source | as written | input that shows it | evidently intended | confidence | as-written member | corrected member |
|---|---|---|---|---|---|---|
| cms/djangoapps/contentstore/views/assets.py:196 | reads `file_extensions_for_requested_file_types`, which is defined only in the `OTHER` helper, so NameError is raised | `asset_type=Images` with `Images` in the table | use the extensions collected at line 195 | high, not executed | `AssetFilter.FilterParametersAsWritten`, `AssetFilter.UndefinedNameBreaksKnownTypes`, `AssetFilter.UndefinedNameCounterexample` | `AssetFilter.FilterParameters` |
| cms/djangoapps/contentstore/views/assets.py:137 | after the requery, the start index and the reported page are computed from the stale local `current_page` | 10 assets, `page=5`, `page_size=5`: reports page 5 and indices 25–30 with the assets of page 1 | report the requeried page and its start index | high, not executed | `AssetPaging.PageListingAsWritten`, `AssetPaging.RequeryReportsStaleWindow`, `AssetPaging.StalePageCounterexample` | `AssetPaging.PageListing` |
| cms/djangoapps/contentstore/views/assets.py:135-136 | an empty listing always triggers the requery, and its final page is −1 | a course without assets, default request: a second query from index −50 | requery only when there is a final page | medium, not executed | `AssetPaging.PageListingAsWritten`, `AssetPaging.EmptyListingCounterexample` | `AssetPaging.PageListing` |
| cms/djangoapps/contentstore/views/assets.py:405 | a bare `return` leaves the message unreachable, so the message is `None` | a 2 000 001-byte file under a 2 MB limit | return the formatted message | high, not executed | `AssetUpload.CheckUploadFileSizeAsWritten`, `AssetUpload.MissingMessageCounterexample` | `AssetUpload.CheckUploadFileSize` |
| openedx/core/djangoapps/certificates/api.py:57-59 | the verified-enrollment result is computed and ignored | an audit enrollment with a valid certificate | a valid certificate of a verified enrollment, as the docstring and the audit rows of the view-button tests expect | medium, not executed | `CertificatesApi.HasValidCertificateAsWritten`, `CertificatesApi.AuditEnrollmentCounterexample`, `CertificatesApi.SelfPacedButtonAsWritten` | `CertificatesApi.HasValidCertificate` |

=== FILE: asset_errors.dfy ===
/** The Python exceptions the asset-listing helpers can raise, as values. */
module AssetErrors {

  datatype AssetError =
      /** ValueError: `int()` of a GET parameter that is not a decimal integer. */
    | InvalidLiteral(text: string)
      /** TypeError: `list.extend(None)` for a file type missing from the type table. */
    | UnknownFileType(name: string)
      /** NameError: a reference to a variable that is not defined. */
    | UndefinedName(name: string)
      /** IndexError: a thumbnail location too short to have the element read. */
    | IndexOutOfRange(index: nat)
}

=== FILE: asset_filter.dfy ===
/** `_get_filter_parameters_for_mongo` and its helpers: a requested file type (or "OTHER")
    becomes a MongoDB `$where` clause comparing each asset's content type with the extensions
    listed for that type. */
module AssetFilter {
  import opened Wrappers
  import opened Text
  import opened AssetErrors

  /** `settings.FILES_AND_UPLOAD_TYPE_FILTERS`: file-type name to extensions, in the order the
      dictionary iterates; a dictionary has each key once. */
  type TypeTable = table: seq<(string, seq<string>)> | DistinctKeys(table) witness []

  /** No key occurs twice: the first key differs from every later one, and so on down. */
  predicate DistinctKeys(table: seq<(string, seq<string>)>)
    decreases |table|
  {
    |table| == 0 || ((forall j :: 1 <= j < |table| ==> table[j].0 != table[0].0) && DistinctKeys(table[1..]))
  }

  /** `table.get(name)` */
  function Lookup(table: TypeTable, name: string): Option<seq<string>>
    decreases |table|
  {
    if |table| == 0 then None
    else if table[0].0 == name then Some(table[0].1)
    else Lookup(table[1..], name)
  }

  /** `table.keys()` */
  function TypeNames(table: TypeTable): (names: seq<string>)
    ensures |names| == |table|
    ensures forall i :: 0 <= i < |table| ==> names[i] == table[i].0
    decreases |table|
  {
    if |table| == 0 then [] else [table[0].0] + TypeNames(table[1..])
  }

  /** Every extension of the table, type after type. */
  function AllExtensions(table: TypeTable): seq<string>
    decreases |table|
  {
    if |table| == 0 then [] else table[0].1 + AllExtensions(table[1..])
  }

  /** `_get_extensions_for_file_types`: the extensions of the requested types, concatenated in
      the order the types are requested; the first unknown type raises (`extend(None)`). */
  function ExtensionsForFileTypes(table: TypeTable, types: seq<string>): (r: Result<seq<string>, AssetError>)
    ensures r.Success? <==> forall i :: 0 <= i < |types| ==> Lookup(table, types[i]).Some?
    ensures r.Failure? ==>
      exists i :: (&& 0 <= i < |types|
                   && Lookup(table, types[i]).None?
                   && r.error == UnknownFileType(types[i])
                   && forall j :: 0 <= j < i ==> Lookup(table, types[j]).Some?)
    decreases |types|
  {
    if |types| == 0 then Success([])
    else
      match Lookup(table, types[0])
      case None => Failure(UnknownFileType(types[0]))
      case Some(extensions) =>
        var rest := ExtensionsForFileTypes(table, types[1..]);
        if rest.Failure? then rest else Success(extensions + rest.value)
  }

  /** Requesting `a` and then `b` collects the extensions of `a` followed by those of `b`. */
  lemma {:induction false} ExtensionsOfConcatenation(table: TypeTable, a: seq<string>, b: seq<string>)
    requires ExtensionsForFileTypes(table, a).Success? && ExtensionsForFileTypes(table, b).Success?
    ensures ExtensionsForFileTypes(table, a + b) ==
      Success(ExtensionsForFileTypes(table, a).value + ExtensionsForFileTypes(table, b).value)
    decreases |a|
  {
    if |a| == 0 {
      assert a + b == b;
      var valueB := ExtensionsForFileTypes(table, b).value;
      assert ExtensionsForFileTypes(table, a).value + valueB == valueB;
    } else {
      assert (a + b)[0] == a[0];
      assert (a + b)[1..] == a[1..] + b;
      var first := Lookup(table, a[0]).value;
      assert ExtensionsForFileTypes(table, a).value == first + ExtensionsForFileTypes(table, a[1..]).value;
      ExtensionsOfConcatenation(table, a[1..], b);
      var restA := ExtensionsForFileTypes(table, a[1..]).value;
      var valueB := ExtensionsForFileTypes(table, b).value;
      assert ExtensionsForFileTypes(table, a + b).value == first + (restA + valueB);
      assert first + (restA + valueB) == (first + restA) + valueB;
    }
  }

  /** Looking up names that are not the first key skips the first entry. */
  lemma {:induction false} ExtensionsSkipFirstEntry(table: TypeTable, types: seq<string>)
    requires |table| > 0
    requires forall i :: 0 <= i < |types| ==> types[i] != table[0].0
    ensures ExtensionsForFileTypes(table, types) == ExtensionsForFileTypes(table[1..], types)
    decreases |types|
  {
    if |types| > 0 {
      ExtensionsSkipFirstEntry(table, types[1..]);
    }
  }

  /** Asking for every key of the table never fails and collects every extension in table order. */
  lemma {:induction false} ExtensionsOfAllTypes(table: TypeTable)
    ensures ExtensionsForFileTypes(table, TypeNames(table)) == Success(AllExtensions(table))
    decreases |table|
  {
    if |table| > 0 {
      var rest := TypeNames(table[1..]);
      assert TypeNames(table) == [table[0].0] + rest;
      assert TypeNames(table)[1..] == rest;
      ExtensionsOfAllTypes(table[1..]);
      ExtensionsSkipFirstEntry(table, rest);
    }
  }

  /** One JavaScript comparison of the asset's content type with `extension`, both upper-cased. */
  function Comparison(operator: string, extension: string): (expression: string)
    ensures Contains(expression, operator) && Contains(expression, extension)
  {
    var head := "JSON.stringify(this.contentType).toUpperCase() ";
    var middle := " JSON.stringify('";
    var tail := "').toUpperCase()";
    ContainsInfix(head, operator, middle + extension + tail);
    assert head + operator + (middle + extension + tail) == head + operator + middle + extension + tail;
    ContainsInfix(head + operator + middle, extension, tail);
    head + operator + middle + extension + tail
  }

  /** `_get_javascript_expressions_to_filter_extensions_with_operator` */
  function Comparisons(extensions: seq<string>, operator: string): (expressions: seq<string>)
    ensures |expressions| == |extensions|
    ensures forall i :: 0 <= i < |extensions| ==> expressions[i] == Comparison(operator, extensions[i])
    ensures forall i :: 0 <= i < |extensions| ==>
      Contains(expressions[i], operator) && Contains(expressions[i], extensions[i])
  {
    seq(|extensions|, i requires 0 <= i < |extensions| => Comparison(operator, extensions[i]))
  }

  /** `_get_javascript_expressions_for_mongo_filter_with_separator` */
  function WhereFilter(expressions: seq<string>, separator: string): (filter: map<string, string>)
    ensures filter.Keys == {"$where"}
    ensures forall i :: 0 <= i < |expressions| ==> Contains(filter["$where"], expressions[i])
    ensures |expressions| >= 1 ==>
      |filter["$where"]| == TotalLength(expressions) + (|expressions| - 1) * |separator|
  {
    var filter := map["$where" := Join(separator, expressions)];
    JoinContainsParts(separator, expressions);
    if |expressions| >= 1 then JoinLength(separator, expressions); filter else filter
  }

  /** `_get_mongo_where_operator_parameters_for_other`: the asset matches none of the known
      extensions. */
  function WhereForOther(table: TypeTable): (r: Result<map<string, string>, AssetError>)
    ensures r == Success(map["$where" := Join(" && ", Comparisons(AllExtensions(table), "!="))])
    ensures forall i :: 0 <= i < |AllExtensions(table)| ==>
      Contains(r.value["$where"], Comparison("!=", AllExtensions(table)[i]))
  {
    ExtensionsOfAllTypes(table);
    var extensions := ExtensionsForFileTypes(table, TypeNames(table)).value;
    Success(WhereFilter(Comparisons(extensions, "!="), " && "))
  }

  /** `_get_mongo_where_operator_parameters_for_filters` as written: after collecting the
      extensions it reads an undefined name, so every request reaching it raises. */
  function WhereForFiltersAsWritten(table: TypeTable, requested: string): (r: Result<map<string, string>, AssetError>)
    ensures r.Failure?
    ensures ExtensionsForFileTypes(table, Split(requested, ',')).Failure? ==>
      r.error == ExtensionsForFileTypes(table, Split(requested, ',')).error
    ensures ExtensionsForFileTypes(table, Split(requested, ',')).Success? ==>
      r.error == UndefinedName("file_extensions_for_requested_file_types")
  {
    var extensions :- ExtensionsForFileTypes(table, Split(requested, ','));
    Failure(UndefinedName("file_extensions_for_requested_file_types"))
  }

  /** The same with the extensions it has just collected: the asset matches one of the
      extensions of the comma-separated types. */
  function WhereForFilters(table: TypeTable, requested: string): (r: Result<map<string, string>, AssetError>)
    ensures r.Success? <==> ExtensionsForFileTypes(table, Split(requested, ',')).Success?
    ensures r.Failure? ==> r.error == ExtensionsForFileTypes(table, Split(requested, ',')).error
    ensures r.Success? ==>
      var extensions := ExtensionsForFileTypes(table, Split(requested, ',')).value;
      && r.value.Keys == {"$where"}
      && forall i :: 0 <= i < |extensions| ==> Contains(r.value["$where"], Comparison("==", extensions[i]))
  {
    var extensions :- ExtensionsForFileTypes(table, Split(requested, ','));
    Success(WhereFilter(Comparisons(extensions, "=="), " || "))
  }

  /** `_get_filter_parameters_for_mongo` as written. */
  function FilterParametersAsWritten(table: TypeTable, requested: string): (r: Result<map<string, string>, AssetError>)
    ensures requested == "OTHER" ==> r == FilterParameters(table, requested)
    ensures requested != "OTHER" ==> r.Failure?
    ensures requested != "OTHER" && ExtensionsForFileTypes(table, Split(requested, ',')).Success? ==>
      r == Failure(UndefinedName("file_extensions_for_requested_file_types"))
  {
    if requested == "OTHER" then WhereForOther(table) else WhereForFiltersAsWritten(table, requested)
  }

  /** `_get_filter_parameters_for_mongo` with the undefined name corrected. */
  function FilterParameters(table: TypeTable, requested: string): (r: Result<map<string, string>, AssetError>)
    ensures r.Success? ==> r.value.Keys == {"$where"}
    ensures requested == "OTHER" ==>
      r == Success(map["$where" := Join(" && ", Comparisons(AllExtensions(table), "!="))])
    ensures requested != "OTHER" ==>
      (r.Success? <==> ExtensionsForFileTypes(table, Split(requested, ',')).Success?)
    ensures requested != "OTHER" && r.Success? ==>
      r.value["$where"] == Join(" || ", Comparisons(ExtensionsForFileTypes(table, Split(requested, ',')).value, "=="))
  {
    if requested != "OTHER" then WhereForFilters(table, requested) else WhereForOther(table)
  }

  /** A client that selects several known types, joined by commas, gets one `==` comparison per
      extension of those types, in the order of the types, joined by " || ". */
  lemma SelectedTypesFilter(table: TypeTable, names: seq<string>, extensions: seq<string>)
    requires |names| >= 1 && Join(",", names) != "OTHER"
    requires forall i :: 0 <= i < |names| ==> ',' !in names[i]
    requires ExtensionsForFileTypes(table, names) == Success(extensions)
    ensures FilterParameters(table, Join(",", names)) ==
      Success(map["$where" := Join(" || ", Comparisons(extensions, "=="))])
  {
    SplitJoin(names, ',');
  }

  /** A filter naming a type the table does not know raises instead of filtering. */
  lemma UnknownTypeRaises(table: TypeTable, name: string)
    requires name != "OTHER" && ',' !in name && Lookup(table, name).None?
    ensures FilterParameters(table, name) == Failure(UnknownFileType(name))
  {
    SplitWithoutSeparator(name, ',');
  }

  /** As written, the filter agrees with the corrected one only for "OTHER" and for requests
      that fail anyway: every request of known types is broken. */
  lemma UndefinedNameBreaksKnownTypes(table: TypeTable, requested: string)
    ensures FilterParametersAsWritten(table, requested) == FilterParameters(table, requested) <==>
      requested == "OTHER" || ExtensionsForFileTypes(table, Split(requested, ',')).Failure?
  {
  }

  /** The undefined name makes every filter other than "OTHER" fail, where the corrected
      definition filters. */
  lemma UndefinedNameCounterexample()
    ensures FilterParametersAsWritten([("Images", ["image/png"])], "Images").Failure?
    ensures FilterParameters([("Images", ["image/png"])], "Images") ==
      Success(map["$where" := Comparison("==", "image/png")])
  {
    var table := [("Images", ["image/png"])];
    var extensions: seq<string> := ["image/png"];
    assert ["Images"][1..] == [];
    assert extensions + [] == extensions;
    assert ExtensionsForFileTypes(table, ["Images"]) == Success(extensions);
    SelectedTypesFilter(table, ["Images"], extensions);
    assert Comparisons(extensions, "==") == [Comparison("==", "image/png")];
  }
}

=== FILE: asset_paging.dfy ===
/** `_assets_json` and the page arithmetic behind it: which page is asked of the store, the
    second query for the final page when the requested page lies past the end, and the rows
    shaped from the assets the store returns. The store itself is a parameter. */
module AssetPaging {
  import opened Wrappers
  import opened AssetErrors
  import opened AssetRequest
  import opened AssetFilter

  /** `_get_current_page`: `max(requested, 0)`. */
  function CurrentPage(requested: int): (page: int)
    ensures page >= 0 && page >= requested
    ensures page == requested || page == 0
  {
    if requested >= 0 then requested else 0
  }

  /** `_get_first_asset_index`: the index of the first asset of `page`. */
  function FirstAssetIndex(page: int, pageSize: int): (index: int)
    ensures page >= 0 && pageSize >= 0 ==> index >= 0
    ensures pageSize > 0 ==> (index >= 0 <==> page >= 0)
  {
    page * pageSize
  }

  /** Consecutive pages are adjacent: each starts where the previous one ends. */
  lemma PagesAreAdjacent(page: int, pageSize: int)
    ensures FirstAssetIndex(page + 1, pageSize) == FirstAssetIndex(page, pageSize) + pageSize
  {
  }

  /** The clamped page never starts before the first asset. */
  lemma FirstIndexNonNegative(requested: int, pageSize: int)
    requires pageSize >= 0
    ensures FirstAssetIndex(CurrentPage(requested), pageSize) >= 0
  {
  }

  /** `_update_options_to_requery_final_page`: the page holding the last of `totalCount` assets.
      Python 2's `/` on integers floors, which for a positive divisor is Dafny's `/`. For an empty
      listing this is page -1. */
  function FinalPage(totalCount: nat, pageSize: int): (page: int)
    requires pageSize > 0
    ensures totalCount == 0 ==> page == -1
    ensures totalCount >= 1 ==>
      && 0 <= page
      && FirstAssetIndex(page, pageSize) < totalCount
      && FirstAssetIndex(page, pageSize) > totalCount - pageSize - 1
  {
    var page := (totalCount - 1) / pageSize;
    assert totalCount - 1 == page * pageSize + (totalCount - 1) % pageSize;
    page
  }

  /** A key `course_key.make_asset_key(category, name)`. */
  datatype AssetKey = AssetKey(courseKey: string, category: string, name: string)

  /** One asset document as the store returns it. `thumbnailLocation` and `locked` may be
      missing from older documents. */
  datatype Asset = Asset(
    displayName: string,
    contentType: string,
    uploadDate: int,
    assetKey: string,
    thumbnailLocation: Option<seq<string>>,
    locked: Option<bool>)

  /** `_get_thumbnail_asset_key`: no key unless the document has a non-empty thumbnail
      location, whose element 4 names the thumbnail; a shorter location raises IndexError. */
  function ThumbnailAssetKey(asset: Asset, courseKey: string): (r: Result<Option<AssetKey>, AssetError>)
    ensures asset.thumbnailLocation.None? || asset.thumbnailLocation == Some([]) ==> r == Success(None)
    ensures r.Failure? <==> asset.thumbnailLocation.Some? && 0 < |asset.thumbnailLocation.value| < 5
    ensures r.Success? && r.value.Some? ==>
      && asset.thumbnailLocation.Some? && |asset.thumbnailLocation.value| >= 5
      && r.value.value == AssetKey(courseKey, "thumbnail", asset.thumbnailLocation.value[4])
    ensures asset.thumbnailLocation.Some? && |asset.thumbnailLocation.value| >= 5 ==>
      r == Success(Some(AssetKey(courseKey, "thumbnail", asset.thumbnailLocation.value[4])))
  {
    match asset.thumbnailLocation
    case None => Success(None)
    case Some(location) =>
      if |location| == 0 then Success(None)
      else if |location| < 5 then Failure(IndexOutOfRange(4))
      else Success(Some(AssetKey(courseKey, "thumbnail", location[4])))
  }

  /** A stored location `(tag, org, course, category, name, …)` yields the thumbnail key of its
      name. */
  lemma ThumbnailOfStoredLocation(asset: Asset, courseKey: string, prefix: seq<string>, name: string,
                                  rest: seq<string>)
    requires |prefix| == 4 && asset.thumbnailLocation == Some(prefix + [name] + rest)
    ensures ThumbnailAssetKey(asset, courseKey) == Success(Some(AssetKey(courseKey, "thumbnail", name)))
  {
    assert (prefix + [name] + rest)[4] == name;
  }

  /** `asset.get('locked', False)` */
  function IsLocked(asset: Asset): (locked: bool)
    ensures locked <==> asset.locked == Some(true)
  {
    asset.locked.GetOr(false)
  }

  /** The arguments `_get_assets_in_json_format` hands to `_get_asset_json` for one asset. */
  datatype AssetRow = AssetRow(
    displayName: string,
    contentType: string,
    uploadDate: int,
    location: string,
    thumbnail: Option<AssetKey>,
    locked: bool)

  /** `_get_assets_in_json_format`: one row per asset, in the store's order; the first asset
      whose thumbnail key cannot be built makes the whole listing fail. */
  function AssetRows(assets: seq<Asset>, courseKey: string): (r: Result<seq<AssetRow>, AssetError>)
    ensures r.Success? <==> forall i :: 0 <= i < |assets| ==> ThumbnailAssetKey(assets[i], courseKey).Success?
    ensures r.Success? ==> |r.value| == |assets|
    ensures r.Success? ==> forall i :: 0 <= i < |assets| ==>
      && r.value[i].displayName == assets[i].displayName
      && r.value[i].contentType == assets[i].contentType
      && r.value[i].uploadDate == assets[i].uploadDate
      && r.value[i].location == assets[i].assetKey
      && r.value[i].thumbnail == ThumbnailAssetKey(assets[i], courseKey).value
      && r.value[i].locked == IsLocked(assets[i])
    decreases |assets|
  {
    if |assets| == 0 then Success([])
    else
      var asset := assets[0];
      var thumbnail := ThumbnailAssetKey(asset, courseKey);
      if thumbnail.Failure? then Failure(thumbnail.error)
      else
        var rest := AssetRows(assets[1..], courseKey);
        if rest.Failure? then rest
        else
          var row := AssetRow(asset.displayName, asset.contentType, asset.uploadDate, asset.assetKey,
                              thumbnail.value, IsLocked(asset));
          Success([row] + rest.value)
  }

  /** The arguments of `contentstore().get_all_content_for_course`. */
  datatype StoreQuery = StoreQuery(
    start: int,
    maxResults: int,
    sort: SortSpec,
    filter: Option<map<string, string>>)

  /** The store's answer: one page of assets and the number of assets matching the filter. */
  datatype StoreReply = StoreReply(assets: seq<Asset>, totalCount: nat)

  /** The JSON body of the listing response. */
  datatype Payload = Payload(
    start: int,
    end: int,
    page: int,
    pageSize: int,
    totalCount: nat,
    assets: seq<AssetRow>,
    sort: string)

  /** A listing response together with the store queries issued for it, in order. */
  datatype Listing = Listing(payload: Payload, queries: seq<StoreQuery>)

  /** `filter_params if filter_params else None`: an empty filter is no filter. */
  function StoreFilter(filter: Option<map<string, string>>): Option<map<string, string>>
  {
    if filter.Some? && |filter.value| == 0 then None else filter
  }

  /** `_get_assets_for_page`: the query for `page`. */
  function PageQuery(page: int, options: RequestOptions, filter: Option<map<string, string>>): (query: StoreQuery)
    ensures query.start == FirstAssetIndex(page, options.pageSize)
    ensures query.maxResults == options.pageSize && query.sort == SortTypeAndDirection(options)
    ensures query.filter.Some? ==> |query.filter.value| > 0
    ensures filter.Some? && |filter.value| > 0 ==> query.filter == filter
    ensures filter.None? || |filter.value| == 0 ==> query.filter.None?
  {
    StoreQuery(FirstAssetIndex(page, options.pageSize), options.pageSize, SortTypeAndDirection(options),
               StoreFilter(filter))
  }

  /** The filter of a request as written: none for an empty asset type. */
  function RequestedFilterAsWritten(table: TypeTable, assetType: string): (r: Result<Option<map<string, string>>, AssetError>)
    ensures assetType == "" ==> r == Success(None)
    ensures assetType == "OTHER" ==> r == RequestedFilter(table, assetType)
    ensures assetType != "" && assetType != "OTHER" ==> r.Failure?
    ensures r.Failure? ==>
      FilterParametersAsWritten(table, assetType).Failure? && r.error == FilterParametersAsWritten(table, assetType).error
  {
    if assetType == "" then Success(None)
    else
      var filter := FilterParametersAsWritten(table, assetType);
      if filter.Failure? then Failure(filter.error) else Success(Some(filter.value))
  }

  /** The filter of a request, with the filter construction corrected. */
  function RequestedFilter(table: TypeTable, assetType: string): (r: Result<Option<map<string, string>>, AssetError>)
    ensures assetType == "" ==> r == Success(None)
    ensures r.Success? ==> (r.value.None? <==> assetType == "")
    ensures assetType != "" ==> (r.Success? <==> FilterParameters(table, assetType).Success?)
    ensures assetType != "" && r.Success? ==> r.value == Some(FilterParameters(table, assetType).value)
    ensures r.Failure? ==>
      FilterParameters(table, assetType).Failure? && r.error == FilterParameters(table, assetType).error
  {
    if assetType == "" then Success(None)
    else
      var filter := FilterParameters(table, assetType);
      if filter.Failure? then Failure(filter.error) else Success(Some(filter.value))
  }

  /** The response body for the assets of `reply`, the first of which has index `first`. */
  function Respond(first: int, page: int, options: RequestOptions, reply: StoreReply, courseKey: string): (r: Result<Payload, AssetError>)
    ensures r.Success? ==> r.value.start == first && r.value.end == first + |reply.assets|
    ensures r.Success? ==> r.value.page == page && r.value.totalCount == reply.totalCount
    ensures r.Success? <==> AssetRows(reply.assets, courseKey).Success?
    ensures r.Success? ==>
      && r.value.assets == AssetRows(reply.assets, courseKey).value
      && r.value.pageSize == options.pageSize
      && r.value.sort == options.sort
  {
    var rows := AssetRows(reply.assets, courseKey);
    if rows.Failure? then Failure(rows.error)
    else Success(Payload(first, first + |reply.assets|, page, options.pageSize, reply.totalCount, rows.value, options.sort))
  }

  /** The paging half of `_assets_json` as written: the final page is requeried whenever the
      first index is at or past the total, an empty listing included, and the response still
      reports the clamped requested page and its start index. */
  function PageListingAsWritten(options: RequestOptions, filter: Option<map<string, string>>, courseKey: string,
                                fetch: StoreQuery -> StoreReply): (r: Result<Listing, AssetError>)
    ensures (forall query: StoreQuery :: AssetRows(fetch(query).assets, courseKey).Success?) ==> r.Success?
    ensures r.Success? ==>
      var queries := r.value.queries;
      && 1 <= |queries| <= 2
      && queries[0] == PageQuery(CurrentPage(options.page), options, filter)
      && (|queries| == 2 <==> options.pageSize > 0 && fetch(queries[0]).totalCount <= queries[0].start)
      && (|queries| == 2 ==>
            queries[1] == PageQuery(FinalPage(fetch(queries[0]).totalCount, options.pageSize), options, filter))
      && r.value.payload.page == CurrentPage(options.page)
      && r.value.payload.start == queries[0].start
      && r.value.payload.pageSize == options.pageSize
      && r.value.payload.sort == options.sort
      && r.value.payload.end == queries[0].start + |fetch(queries[|queries| - 1]).assets|
      && r.value.payload.totalCount == fetch(queries[|queries| - 1]).totalCount
      && AssetRows(fetch(queries[|queries| - 1]).assets, courseKey).Success?
      && r.value.payload.assets == AssetRows(fetch(queries[|queries| - 1]).assets, courseKey).value
  {
    var page := CurrentPage(options.page);
    var first := FirstAssetIndex(page, options.pageSize);
    var query := PageQuery(page, options, filter);
    var reply := fetch(query);
    if options.pageSize > 0 && first >= reply.totalCount then
      var requery := PageQuery(FinalPage(reply.totalCount, options.pageSize), options, filter);
      var payload :- Respond(first, page, options, fetch(requery), courseKey);
      Success(Listing(payload, [query, requery]))
    else
      var payload :- Respond(first, page, options, reply, courseKey);
      Success(Listing(payload, [query]))
  }

  /** `_assets_json` as written, with the filter built as written. */
  function AssetsJsonAsWritten(table: TypeTable, get: map<string, string>, courseKey: string,
                               fetch: StoreQuery -> StoreReply): (r: Result<Listing, AssetError>)
    ensures ParseRequest(get).Failure? ==> r.Failure?
    ensures ParseRequest(get).Success? && RequestedFilterAsWritten(table, ParseRequest(get).value.assetType).Failure? ==>
      r.Failure?
    ensures ParseRequest(get).Success? && RequestedFilterAsWritten(table, ParseRequest(get).value.assetType).Success? ==>
      r == PageListingAsWritten(ParseRequest(get).value,
                                RequestedFilterAsWritten(table, ParseRequest(get).value.assetType).value,
                                courseKey, fetch)
    ensures r.Success? ==>
      && ParseRequest(get).Success?
      && RequestedFilterAsWritten(table, ParseRequest(get).value.assetType).Success?
      && r == PageListingAsWritten(ParseRequest(get).value,
                                   RequestedFilterAsWritten(table, ParseRequest(get).value.assetType).value,
                                   courseKey, fetch)
  {
    var options :- ParseRequest(get);
    var filter :- RequestedFilterAsWritten(table, options.assetType);
    PageListingAsWritten(options, filter, courseKey, fetch)
  }

  /** The paging half of `_assets_json` corrected: the final page is requeried only when there
      is one, and the response reports the page actually returned. */
  function PageListing(options: RequestOptions, filter: Option<map<string, string>>, courseKey: string,
                       fetch: StoreQuery -> StoreReply): (r: Result<Listing, AssetError>)
    ensures (forall query: StoreQuery :: AssetRows(fetch(query).assets, courseKey).Success?) ==> r.Success?
    ensures r.Success? ==>
      var queries := r.value.queries;
      && 1 <= |queries| <= 2
      && queries[0].start == FirstAssetIndex(CurrentPage(options.page), options.pageSize)
      && (forall i :: 0 <= i < |queries| ==>
            && queries[i].maxResults == options.pageSize
            && queries[i].sort == SortTypeAndDirection(options)
            && queries[i].filter == StoreFilter(filter))
      && (|queries| == 2 <==>
            options.pageSize > 0 && 0 < fetch(queries[0]).totalCount <= queries[0].start)
      && (|queries| == 2 ==>
            queries[1].start == FirstAssetIndex(FinalPage(fetch(queries[0]).totalCount, options.pageSize), options.pageSize))
      && r.value.payload.page ==
           (if |queries| == 2 then FinalPage(fetch(queries[0]).totalCount, options.pageSize)
            else CurrentPage(options.page))
      && r.value.payload.start == queries[|queries| - 1].start
      && AssetRows(fetch(queries[|queries| - 1]).assets, courseKey).Success?
      && r.value.payload.assets == AssetRows(fetch(queries[|queries| - 1]).assets, courseKey).value
      && r.value.payload.pageSize == options.pageSize
      && r.value.payload.sort == options.sort
      && r.value.payload.start == FirstAssetIndex(r.value.payload.page, options.pageSize)
      && r.value.payload.totalCount == fetch(queries[|queries| - 1]).totalCount
      && r.value.payload.end == r.value.payload.start + |fetch(queries[|queries| - 1]).assets|
  {
    var page := CurrentPage(options.page);
    var first := FirstAssetIndex(page, options.pageSize);
    var query := PageQuery(page, options, filter);
    var reply := fetch(query);
    if options.pageSize > 0 && first >= reply.totalCount && reply.totalCount > 0 then
      var finalPage := FinalPage(reply.totalCount, options.pageSize);
      var requery := PageQuery(finalPage, options, filter);
      var payload :- Respond(FirstAssetIndex(finalPage, options.pageSize), finalPage, options, fetch(requery), courseKey);
      Success(Listing(payload, [query, requery]))
    else
      var payload :- Respond(first, page, options, reply, courseKey);
      Success(Listing(payload, [query]))
  }

  /** `_assets_json` corrected: the request is parsed, its filter built (with the undefined
      name corrected), and the page listed. */
  function AssetsJson(table: TypeTable, get: map<string, string>, courseKey: string,
                      fetch: StoreQuery -> StoreReply): (r: Result<Listing, AssetError>)
    ensures ParseRequest(get).Failure? ==> r.Failure?
    ensures ParseRequest(get).Success? && RequestedFilter(table, ParseRequest(get).value.assetType).Failure? ==>
      r.Failure?
    ensures ParseRequest(get).Success? && RequestedFilter(table, ParseRequest(get).value.assetType).Success? ==>
      r == PageListing(ParseRequest(get).value, RequestedFilter(table, ParseRequest(get).value.assetType).value,
                       courseKey, fetch)
    ensures r.Success? ==>
      && ParseRequest(get).Success?
      && RequestedFilter(table, ParseRequest(get).value.assetType).Success?
      && r == PageListing(ParseRequest(get).value, RequestedFilter(table, ParseRequest(get).value.assetType).value,
                          courseKey, fetch)
      && (r.value.queries[0].filter.None? <==> ParseRequest(get).value.assetType == "")
  {
    var options :- ParseRequest(get);
    var filter :- RequestedFilter(table, options.assetType);
    PageListing(options, filter, courseKey, fetch)
  }

  /** The `count` items from `start` of `items`, fewer at the end. */
  function Window(items: seq<Asset>, start: nat, count: nat): (window: seq<Asset>)
    ensures start < |items| && count > 0 ==> 0 < |window| && start + |window| <= |items|
    ensures |window| <= count
  {
    if start >= |items| then []
    else if start + count < |items| then items[start..start + count]
    else items[start..]
  }

  /** The reply to `query` of a store holding `items`, the course's assets after filtering and
      sorting: it counts all of them, and for a non-negative start and a positive limit it holds
      the window of the items from that start. */
  ghost predicate Answers(fetch: StoreQuery -> StoreReply, items: seq<Asset>, query: StoreQuery)
  {
    && fetch(query).totalCount == |items|
    && (query.start >= 0 && query.maxResults > 0 ==>
          fetch(query).assets == Window(items, query.start, query.maxResults))
  }

  /** A store answering every query with one filter and one sort from the same `items`: the
      assets of the course that pass `filter`, in the order `sort` gives them. Queries with another
      filter or sort may be answered from other items. */
  ghost predicate ServesWindows(fetch: StoreQuery -> StoreReply, items: seq<Asset>,
                                filter: Option<map<string, string>>, sort: SortSpec)
  {
    forall query: StoreQuery | query.filter == filter && query.sort == sort :: Answers(fetch, items, query)
  }

  /** A store holding `items` whatever the filter and sort, as for a course whose assets all
      pass the filter and are already in sort order. */
  function WindowStore(items: seq<Asset>): (fetch: StoreQuery -> StoreReply)
    ensures forall filter, sort :: ServesWindows(fetch, items, filter, sort)
  {
    (q: StoreQuery) =>
      StoreReply(if q.start >= 0 && q.maxResults > 0 then Window(items, q.start, q.maxResults) else [], |items|)
  }

  /** A page that starts inside a consistent store's listing is not empty and ends by its end. */
  lemma WindowInRange(fetch: StoreQuery -> StoreReply, items: seq<Asset>, query: StoreQuery)
    requires ServesWindows(fetch, items, query.filter, query.sort)
    requires 0 <= query.start < |items| && query.maxResults > 0
    ensures fetch(query).totalCount == |items|
    ensures 0 < |fetch(query).assets| && query.start + |fetch(query).assets| <= |items|
  {
    assert Answers(fetch, items, query);
  }

  /** Against a store consistent for the listing's filter and sort, with at least one matching
      asset, a positive page size always yields a page that exists: it starts inside the listing,
      is not empty, and ends by its end. */
  lemma PageListingInRange(options: RequestOptions, filter: Option<map<string, string>>, courseKey: string,
                           fetch: StoreQuery -> StoreReply, items: seq<Asset>)
    requires ServesWindows(fetch, items, StoreFilter(filter), SortTypeAndDirection(options))
    requires |items| > 0 && options.pageSize > 0
    requires PageListing(options, filter, courseKey, fetch).Success?
    ensures var payload := PageListing(options, filter, courseKey, fetch).value.payload;
      && payload.page >= 0
      && payload.totalCount == |items|
      && 0 <= payload.start < payload.end <= |items|
  {
    var listing := PageListing(options, filter, courseKey, fetch).value;
    var queries := listing.queries;
    var first := queries[0];
    var last := queries[|queries| - 1];
    assert Answers(fetch, items, first);
    if |queries| == 2 {
      var finalPage := FinalPage(|items|, options.pageSize);
      assert 0 <= last.start < |items|;
    } else {
      FirstIndexNonNegative(options.page, options.pageSize);
      assert 0 <= last.start < |items|;
    }
    WindowInRange(fetch, items, last);
  }

  /** The same for a whole request. */
  lemma ListedPageInRange(table: TypeTable, get: map<string, string>, courseKey: string,
                          fetch: StoreQuery -> StoreReply, items: seq<Asset>)
    requires AssetsJson(table, get, courseKey, fetch).Success?
    requires ServesWindows(fetch, items, StoreFilter(RequestedFilter(table, ParseRequest(get).value.assetType).value),
                           SortTypeAndDirection(ParseRequest(get).value))
    requires |items| > 0 && ParseRequest(get).value.pageSize > 0
    ensures var payload := AssetsJson(table, get, courseKey, fetch).value.payload;
      && payload.page >= 0
      && payload.totalCount == |items|
      && 0 <= payload.start < payload.end <= |items|
  {
    var options := ParseRequest(get).value;
    var filter := RequestedFilter(table, options.assetType).value;
    PageListingInRange(options, filter, courseKey, fetch, items);
  }

  /** As written, whenever the final page is requeried from a store consistent for the
      listing's filter and sort, with matching assets, the response reports a window that starts at or past the end of the listing, so the
      assets it carries are labelled with indices they do not have. */
  lemma RequeryReportsStaleWindow(options: RequestOptions, filter: Option<map<string, string>>, courseKey: string,
                                  fetch: StoreQuery -> StoreReply, items: seq<Asset>)
    requires ServesWindows(fetch, items, StoreFilter(filter), SortTypeAndDirection(options))
    requires |items| > 0
    requires PageListingAsWritten(options, filter, courseKey, fetch).Success?
    requires |PageListingAsWritten(options, filter, courseKey, fetch).value.queries| == 2
    ensures var payload := PageListingAsWritten(options, filter, courseKey, fetch).value.payload;
      && payload.totalCount == |items|
      && payload.start >= payload.totalCount
      && payload.end > payload.totalCount
  {
    var queries := PageListingAsWritten(options, filter, courseKey, fetch).value.queries;
    assert Answers(fetch, items, queries[0]);
    assert 0 <= queries[1].start < |items|;
    WindowInRange(fetch, items, queries[1]);
  }

  /** Ten assets listed five to a page, page 5 requested: as written, the response carries the
      final page's assets but reports page 5 starting at index 25, past the ten there are; the
      corrected listing reports page 1 starting at index 5. */
  lemma StalePageCounterexample()
    ensures
      var items := seq(10, i => Asset("logo.png", "image/png", 0, "logo", None, None));
      var get := EncodeRequest(RequestOptions(5, 5, "date_added", "", ""));
      var asWritten := AssetsJsonAsWritten([], get, "course", WindowStore(items));
      var corrected := AssetsJson([], get, "course", WindowStore(items));
      && asWritten.Success?
      && asWritten.value.payload.page == 5 && asWritten.value.payload.start == 25
      && asWritten.value.payload.end == 30 && asWritten.value.payload.totalCount == 10
      && corrected.Success?
      && corrected.value.payload.page == 1 && corrected.value.payload.start == 5
      && corrected.value.payload.end == 10
  {
    var items := seq(10, i => Asset("logo.png", "image/png", 0, "logo", None, None));
    var options := RequestOptions(5, 5, "date_added", "", "");
    ParseEncodedRequest(options);
    var fetch := WindowStore(items);
    var requery := PageQuery(1, options, None);
    assert FinalPage(10, 5) == 1;
    assert |fetch(requery).assets| == 5;
    assert AssetRows(fetch(requery).assets, "course").Success?;
  }

  /** A course without assets, default request: as written the store is asked a second time,
      for page -1 starting at index -50; the corrected listing asks once, for page 0. */
  lemma EmptyListingCounterexample()
    ensures
      var get := EncodeRequest(Defaults);
      var asWritten := AssetsJsonAsWritten([], get, "course", WindowStore([]));
      var corrected := AssetsJson([], get, "course", WindowStore([]));
      && asWritten.Success? && |asWritten.value.queries| == 2 && asWritten.value.queries[1].start == -50
      && corrected.Success? && |corrected.value.queries| == 1
      && corrected.value.payload.page == 0 && corrected.value.payload.start == 0
      && corrected.value.payload.end == 0
  {
    ParseEncodedRequest(Defaults);
    assert FinalPage(0, 50) == -1;
    assert AssetRows([], "course").Success?;
  }
}

=== FILE: asset_request.dfy ===
/** How the asset view reads its request: the GET defaults, the conversion of the query
    string into typed options, the choice of response format and the sort specification. */
module AssetRequest {
  import opened Wrappers
  import opened Text
  import opened PyInt
  import opened AssetErrors

  /** The parsed query of an asset-listing request. */
  datatype RequestOptions = RequestOptions(
    page: int,
    pageSize: int,
    sort: string,
    direction: string,
    assetType: string)

  /** `request_defaults`: the value of every parameter the client leaves out. */
  const Defaults := RequestOptions(0, 50, "date_added", "", "")

  /** `int(request.GET.get(name, default))` */
  function IntParameter(get: map<string, string>, name: string, default: int): (r: Result<int, AssetError>)
    ensures r.Success? <==> name !in get || ParseInt(get[name]).Some?
    ensures name !in get ==> r == Success(default)
    ensures name in get && r.Success? ==> r.value == ParseInt(get[name]).value
    ensures r.Failure? ==> name in get && r.error == InvalidLiteral(get[name])
  {
    if name in get then
      match ParseInt(get[name])
      case Some(n) => Success(n)
      case None => Failure(InvalidLiteral(get[name]))
    else Success(default)
  }

  /** A parameter written by `str` is read back as the integer it names. */
  lemma IntParameterOfString(get: map<string, string>, name: string, n: int, default: int)
    ensures IntParameter(get[name := IntToString(n)], name, default) == Success(n)
  {
    ParseIntOfString(n);
  }

  /** `request.GET.get(name, default)` for a string parameter. */
  function StrParameter(get: map<string, string>, name: string, default: string): (value: string)
    ensures name in get ==> value == get[name]
    ensures name !in get ==> value == default
  {
    if name in get then get[name] else default
  }

  /** `_parse_request_to_dictionary`: the page and page size are converted with `int()`, which
      fails on anything but a decimal integer; the other parameters are taken as given. */
  function ParseRequest(get: map<string, string>): (r: Result<RequestOptions, AssetError>)
    ensures r.Failure? <==>
      ("page" in get && ParseInt(get["page"]).None?) ||
      ("page_size" in get && ParseInt(get["page_size"]).None?)
    ensures "page" in get && ParseInt(get["page"]).None? ==> r == Failure(InvalidLiteral(get["page"]))
    ensures ("page" !in get || ParseInt(get["page"]).Some?) &&
            "page_size" in get && ParseInt(get["page_size"]).None? ==>
              r == Failure(InvalidLiteral(get["page_size"]))
    ensures r.Success? ==>
      && r.value.page == (if "page" in get then ParseInt(get["page"]).value else 0)
      && r.value.pageSize == (if "page_size" in get then ParseInt(get["page_size"]).value else 50)
    ensures r.Success? ==>
      && (r.value.sort == if "sort" in get then get["sort"] else "date_added")
      && (r.value.direction == if "direction" in get then get["direction"] else "")
      && (r.value.assetType == if "asset_type" in get then get["asset_type"] else "")
  {
    var page :- IntParameter(get, "page", Defaults.page);
    var pageSize :- IntParameter(get, "page_size", Defaults.pageSize);
    Success(RequestOptions(
      page,
      pageSize,
      StrParameter(get, "sort", Defaults.sort),
      StrParameter(get, "direction", Defaults.direction),
      StrParameter(get, "asset_type", Defaults.assetType)))
  }

  /** The query string a client sends for `options`, every parameter written out. */
  function EncodeRequest(options: RequestOptions): map<string, string>
  {
    map[
      "page" := IntToString(options.page),
      "page_size" := IntToString(options.pageSize),
      "sort" := options.sort,
      "direction" := options.direction,
      "asset_type" := options.assetType]
  }

  /** A request with none of the five parameters gets page 0 of 50 assets, newest first,
      unfiltered. */
  lemma ParseRequestDefaults(get: map<string, string>)
    requires "page" !in get && "page_size" !in get && "sort" !in get
    requires "direction" !in get && "asset_type" !in get
    ensures ParseRequest(get) == Success(RequestOptions(0, 50, "date_added", "", ""))
  {
  }

  /** Every option a client writes into the query string is read back unchanged. */
  lemma ParseEncodedRequest(options: RequestOptions)
    ensures ParseRequest(EncodeRequest(options)) == Success(options)
  {
    ParseIntOfString(options.page);
    ParseIntOfString(options.pageSize);
  }

  /** Python's `a or b`: an absent or empty string is falsy. */
  function Or(first: Option<string>, otherwise: string): string
  {
    if first.Some? && first.value != "" then first.value else otherwise
  }

  function Get(params: map<string, string>, name: string): Option<string>
  {
    if name in params then Some(params[name]) else None
  }

  /** `_get_request_response_format`: the GET `format`, else the POST `format`, else "html". */
  function ResponseFormat(get: map<string, string>, post: map<string, string>): (format: string)
    ensures format != ""
    ensures format == "html" || Get(get, "format") == Some(format) || Get(post, "format") == Some(format)
    ensures "format" in get && get["format"] != "" ==> format == get["format"]
    ensures Get(get, "format") in {None, Some("")} && "format" in post && post["format"] != "" ==>
      format == post["format"]
    ensures Get(get, "format") in {None, Some("")} && Get(post, "format") in {None, Some("")} ==> format == "html"
  {
    Or(Get(get, "format"), Or(Get(post, "format"), "html"))
  }

  const JsonMediaType := "application/json"

  /** `_check_request_response_format_is_json`: JSON when asked for by name or when the Accept
      header mentions the JSON media type; a request without an Accept header counts as JSON. */
  function IsJsonRequested(format: string, accept: Option<string>): (json: bool)
    ensures json <==> format == "json" || accept.None? || Contains(accept.value, JsonMediaType)
  {
    // A missing header stands in as the media type itself, which contains itself.
    assert Contains(JsonMediaType, JsonMediaType) by { assert JsonMediaType <= JsonMediaType; }
    format == "json" || Contains(accept.GetOr(JsonMediaType), JsonMediaType)
  }

  /** A browser asking for a page by an Accept header that cannot mention the JSON media
      type, and not naming JSON as the format, gets HTML. */
  lemma ShortAcceptIsNotJson(format: string, accept: string)
    requires format != "json" && |accept| < |JsonMediaType|
    ensures !IsJsonRequested(format, Some(accept))
  {
    ContainsTooShort(accept, JsonMediaType);
  }

  /** An Accept header naming the JSON media type anywhere in it gets JSON. */
  lemma AcceptNamingJson(format: string, before: string, after: string)
    ensures IsJsonRequested(format, Some(before + JsonMediaType + after))
  {
    ContainsInfix(before, JsonMediaType, after);
  }

  /** A request whose GET `format` is "json" is answered in JSON whatever else it carries. */
  lemma JsonFormatWins(get: map<string, string>, post: map<string, string>, accept: Option<string>)
    requires "format" in get && get["format"] == "json"
    ensures IsJsonRequested(ResponseFormat(get, post), accept)
  {
  }

  /** A page load naming no format, by a client whose Accept header does not mention the JSON
      media type, is answered in HTML. */
  lemma PageLoadIsHtml(get: map<string, string>, post: map<string, string>, accept: string)
    requires "format" !in get && "format" !in post && !Contains(accept, JsonMediaType)
    ensures ResponseFormat(get, post) == "html"
    ensures !IsJsonRequested(ResponseFormat(get, post), Some(accept))
  {
  }

  /** `_get_mongo_sort_from_requested_sort`: the two client-side names are mapped to the
      document fields, every other name is used as the field name. */
  function MongoSortField(requested: string): (field: string)
    ensures requested == "date_added" ==> field == "uploadDate"
    ensures requested == "display_name" ==> field == "displayname"
    ensures requested != "date_added" && requested != "display_name" ==> field == requested
    ensures field != "date_added" && field != "display_name"
  {
    if requested == "date_added" then "uploadDate"
    else if requested == "display_name" then "displayname"
    else requested
  }

  /** Mapping a field name a second time changes nothing. */
  lemma MongoSortFieldIdempotent(requested: string)
    ensures MongoSortField(MongoSortField(requested)) == MongoSortField(requested)
  {
  }

  datatype SortDirection = Ascending | Descending {

    /** pymongo's ASCENDING and DESCENDING */
    function PymongoValue(): int
    {
      if Ascending? then 1 else -1
    }
  }

  /** `requested` is "asc" in some mixture of upper and lower case. */
  predicate SpellsAsc(requested: string)
  {
    && |requested| == 3
    && (requested[0] == 'a' || requested[0] == 'A')
    && (requested[1] == 's' || requested[1] == 'S')
    && (requested[2] == 'c' || requested[2] == 'C')
  }

  /** `_get_sort_direction_from_requested_sort`: ascending exactly for "asc" in any case,
      descending for everything else, the empty default included. */
  function SortDirectionOf(requested: string): (direction: SortDirection)
    ensures direction == Ascending <==> SpellsAsc(requested)
  {
    if Lower(requested) == "asc" then
      assert Lower(requested)[0] == LowerChar(requested[0]);
      Ascending
    else
      assert SpellsAsc(requested) ==> Lower(requested) == "asc";
      Descending
  }

  /** One (field, direction) pair, the form pymongo's `sort` takes. */
  type SortSpec = seq<(string, SortDirection)>

  /** `_get_sort_type_and_direction` */
  function SortTypeAndDirection(options: RequestOptions): (spec: SortSpec)
    ensures |spec| == 1
    ensures spec[0].0 == MongoSortField(options.sort)
    ensures spec[0].0 != "date_added" && spec[0].0 != "display_name"
    ensures spec[0].1 == Ascending <==> SpellsAsc(options.direction)
  {
    [(MongoSortField(options.sort), SortDirectionOf(options.direction))]
  }

  /** Without sort parameters the listing is sorted by upload date, newest first. */
  lemma DefaultSortIsNewestFirst()
    ensures SortTypeAndDirection(Defaults) == [("uploadDate", Descending)]
    ensures Descending.PymongoValue() == -1
  {
  }
}

=== FILE: asset_upload.dfy ===
/** `_check_upload_file_size` and the message it is meant to carry. */
module AssetUpload {
  import opened Wrappers
  import opened Text
  import opened PyInt

  /** `1000 ** 2`: the limit is in decimal megabytes. */
  const BytesPerMegabyte := 1000 * 1000

  /** The HTTP status of the rejection. */
  const RequestEntityTooLarge := 413

  /** The JSON response `{'error': error}` with `status`. */
  datatype Rejection = Rejection(status: int, error: Option<string>)

  /** `_get_file_too_large_error_message` as written: a bare `return`, so `None`. */
  function FileTooLargeMessageAsWritten(filename: string, maxMegabytes: int, faqUrl: string): (message: Option<string>)
    ensures message.None?
  {
    None
  }

  /** The message the function formats after its `return`: it names the file, the limit in
      megabytes and the page explaining how to link to a large file instead. */
  function FileTooLargeMessage(filename: string, maxMegabytes: int, faqUrl: string): (message: string)
    ensures Contains(message, filename)
    ensures Contains(message, IntToString(maxMegabytes))
    ensures Contains(message, faqUrl)
  {
    var head := "File ";
    var middle := " exceeds maximum size of ";
    var tail := " MB. Please follow the instructions here to upload a file elsewhere and link to it instead: ";
    var message := head + filename + middle + IntToString(maxMegabytes) + tail + faqUrl;
    ContainsInfix(head, filename, middle + IntToString(maxMegabytes) + tail + faqUrl);
    assert message == head + filename + (middle + IntToString(maxMegabytes) + tail + faqUrl);
    ContainsInfix(head + filename + middle, IntToString(maxMegabytes), tail + faqUrl);
    assert message == (head + filename + middle) + IntToString(maxMegabytes) + (tail + faqUrl);
    ContainsSuffix(head + filename + middle + IntToString(maxMegabytes) + tail, faqUrl);
    message
  }

  /** `_check_upload_file_size` as written: the rejection carries no message. */
  function CheckUploadFileSizeAsWritten(filename: string, size: int, maxMegabytes: int, faqUrl: string): (r: Option<Rejection>)
    ensures r.Some? <==> size > maxMegabytes * 1000000
    ensures r.Some? ==> r.value == Rejection(413, None)
  {
    if size > maxMegabytes * BytesPerMegabyte then
      Some(Rejection(RequestEntityTooLarge, FileTooLargeMessageAsWritten(filename, maxMegabytes, faqUrl)))
    else None
  }

  /** `_check_upload_file_size`: a file is rejected with status 413 exactly when it is larger
      than the limit, and the rejection explains why. */
  function CheckUploadFileSize(filename: string, size: int, maxMegabytes: int, faqUrl: string): (r: Option<Rejection>)
    ensures r.Some? <==> size > maxMegabytes * 1000000
    ensures r.Some? ==> r.value.status == 413 && r.value.error.Some? && Contains(r.value.error.value, filename)
  {
    if size > maxMegabytes * BytesPerMegabyte then
      Some(Rejection(RequestEntityTooLarge, Some(FileTooLargeMessage(filename, maxMegabytes, faqUrl))))
    else None
  }

  /** A file of exactly the limit is accepted, one byte more is rejected, and anything larger
      than a rejected file is rejected too. */
  lemma UploadLimitBoundary(filename: string, maxMegabytes: int, faqUrl: string, size: int, larger: int)
    requires size <= larger
    ensures CheckUploadFileSize(filename, maxMegabytes * 1000000, maxMegabytes, faqUrl).None?
    ensures CheckUploadFileSize(filename, maxMegabytes * 1000000 + 1, maxMegabytes, faqUrl).Some?
    ensures CheckUploadFileSize(filename, size, maxMegabytes, faqUrl).Some? ==>
      CheckUploadFileSize(filename, larger, maxMegabytes, faqUrl).Some?
  {
  }

  /** A file one byte over a 2 MB limit: as written the 413 response has no message. */
  lemma MissingMessageCounterexample()
    ensures CheckUploadFileSizeAsWritten("talk.mp4", 2000001, 2, "https://example.org/faq") ==
      Some(Rejection(413, None))
    ensures CheckUploadFileSize("talk.mp4", 2000001, 2, "https://example.org/faq").value.error.Some?
  {
  }
}

=== FILE: certificates_api.dfy ===
/** The certificates API: whether certificates are generated automatically, whether they are
    viewable, and whether the "View Certificate" button and the certificate-available-date field
    are shown. The two waffle switches, the course fields, the clock and the certificate lookup
    are inputs. */
module CertificatesApi {
  import opened Wrappers

  /** The switches `SELF_PACED_ONLY` and `INSTRUCTOR_PACED_ONLY`. */
  datatype Switches = Switches(selfPacedOnly: bool, instructorPacedOnly: bool)

  /** The course fields the predicates read; dates and "now" share one integer clock, and
      `hasEnded` is the value of `course.has_ended()`. */
  datatype Course = Course(
    selfPaced: bool,
    displayBehavior: string,
    showBeforeEnd: bool,
    availableDate: Option<int>,
    hasEnded: bool)

  /** `auto_certificate_generation_enabled`: off only when both switches are off. */
  function AutoGenerationEnabled(switches: Switches): (enabled: bool)
    ensures !enabled <==> switches == Switches(false, false)
  {
    switches.selfPacedOnly || switches.instructorPacedOnly
  }

  /** `auto_certificate_generation_enabled_for_course`: the switch for the course's pacing. */
  function AutoGenerationEnabledForCourse(switches: Switches, course: Course): (enabled: bool)
    ensures enabled <==> if course.selfPaced then switches.selfPacedOnly else switches.instructorPacedOnly
    ensures enabled ==> AutoGenerationEnabled(switches)
  {
    AutoGenerationEnabled(switches)
    && if course.selfPaced then switches.selfPacedOnly else switches.instructorPacedOnly
  }

  /** The switch for the other pacing has no say. */
  lemma OtherSwitchIrrelevant(switches: Switches, course: Course, other: bool)
    ensures course.selfPaced ==>
      AutoGenerationEnabledForCourse(switches.(instructorPacedOnly := other), course) ==
      AutoGenerationEnabledForCourse(switches, course)
    ensures !course.selfPaced ==>
      AutoGenerationEnabledForCourse(switches.(selfPacedOnly := other), course) ==
      AutoGenerationEnabledForCourse(switches, course)
  {
  }

  /** The cases of `test_auto_certificate_generation_enabled` and
      `test_auto_certificate_generation_enabled_for_course`. */
  lemma FeatureEnabledTestCases(course: Course)
    ensures AutoGenerationEnabled(Switches(true, true))
    ensures AutoGenerationEnabled(Switches(true, false))
    ensures AutoGenerationEnabled(Switches(false, true))
    ensures !AutoGenerationEnabled(Switches(false, false))
    ensures !AutoGenerationEnabledForCourse(Switches(false, false), course.(selfPaced := true))
    ensures !AutoGenerationEnabledForCourse(Switches(false, true), course.(selfPaced := true))
    ensures AutoGenerationEnabledForCourse(Switches(true, false), course.(selfPaced := true))
    ensures !AutoGenerationEnabledForCourse(Switches(true, false), course.(selfPaced := false))
    ensures AutoGenerationEnabledForCourse(Switches(false, true), course.(selfPaced := false))
  {
  }

  /** `_enabled_and_self_paced`: despite its name, true for instructor-paced courses with their
      switch on. */
  function EnabledAndSelfPaced(switches: Switches, course: Course): (r: bool)
    ensures r <==> !course.selfPaced && switches.instructorPacedOnly
  {
    if AutoGenerationEnabledForCourse(switches, course) then !course.selfPaced else false
  }

  /** `can_show_certificate_available_date_field` */
  function CanShowCertificateAvailableDateField(switches: Switches, course: Course): (show: bool)
    ensures show <==> !course.selfPaced && switches.instructorPacedOnly
    ensures show ==> AutoGenerationEnabledForCourse(switches, course)
  {
    EnabledAndSelfPaced(switches, course)
  }

  /** The cases of `test_can_show_certificate_available_date_field`. */
  lemma AvailableDateFieldTestCases(course: Course)
    ensures !CanShowCertificateAvailableDateField(Switches(true, false), course.(selfPaced := true))
    ensures CanShowCertificateAvailableDateField(Switches(false, true), course.(selfPaced := false))
    ensures !CanShowCertificateAvailableDateField(Switches(false, false), course.(selfPaced := true))
    ensures !CanShowCertificateAvailableDateField(Switches(false, false), course.(selfPaced := false))
  {
  }

  /** `enrollment_is_verified`: the enrollment mode is one of the verified certificate modes. */
  function EnrollmentIsVerified(enrollmentMode: string, verifiedModes: set<string>): (verified: bool)
    ensures verified <==> enrollmentMode in verifiedModes
  {
    enrollmentMode in verifiedModes
  }

  /** `has_valid_certificate` as written: the verified-enrollment result is computed and then
      dropped, so only the certificate's own validity counts. */
  function HasValidCertificateAsWritten(enrollmentMode: string, verifiedModes: set<string>,
                                        certificateIsValid: bool): (valid: bool)
    ensures valid == certificateIsValid
  {
    var _ := EnrollmentIsVerified(enrollmentMode, verifiedModes);
    certificateIsValid
  }

  /** As written, the enrollment has no say in whether the certificate counts. */
  lemma ValidityIgnoresEnrollment(mode: string, modes: set<string>, otherMode: string,
                                  otherModes: set<string>, certificateIsValid: bool)
    ensures HasValidCertificateAsWritten(mode, modes, certificateIsValid) ==
            HasValidCertificateAsWritten(otherMode, otherModes, certificateIsValid)
  {
  }

  /** `has_valid_certificate` as its documentation describes it: a valid certificate of a
      verified enrollment. */
  function HasValidCertificate(enrollmentMode: string, verifiedModes: set<string>,
                               certificateIsValid: bool): (valid: bool)
    ensures valid <==> certificateIsValid && enrollmentMode in verifiedModes
  {
    EnrollmentIsVerified(enrollmentMode, verifiedModes) && certificateIsValid
  }

  /** An audit learner holding a valid certificate: as written the certificate counts. */
  lemma AuditEnrollmentCounterexample()
    ensures HasValidCertificateAsWritten("audit", {"verified", "professional", "credit"}, true)
    ensures !HasValidCertificate("audit", {"verified", "professional", "credit"}, true)
  {
  }

  /** `certificates_viewable_for_course` */
  function CertificatesViewable(course: Course, now: int): (viewable: bool)
    ensures viewable <==>
      || course.selfPaced
      || course.displayBehavior == "early_with_info"
      || course.displayBehavior == "early_no_info"
      || course.showBeforeEnd
      || (course.availableDate.Some? && course.availableDate.value <= now)
      || (course.availableDate.None? && course.hasEnded)
  {
    if course.selfPaced then true
    else if course.displayBehavior in ["early_with_info", "early_no_info"] || course.showBeforeEnd then true
    else if course.availableDate.Some? && course.availableDate.value <= now then true
    else if course.availableDate.None? && course.hasEnded then true
    else false
  }

  /** Once certificates are viewable they stay viewable as time passes. */
  lemma ViewableMonotoneInTime(course: Course, now: int, later: int)
    requires now <= later && CertificatesViewable(course, now)
    ensures CertificatesViewable(course, later)
  {
  }

  /** `can_show_view_certificate_button`, given the result of `has_valid_certificate`. */
  function CanShowViewCertificateButton(switches: Switches, course: Course, now: int,
                                        certificateIsValid: bool): (show: bool)
    ensures !AutoGenerationEnabled(switches) ==> (show <==> certificateIsValid)
    ensures AutoGenerationEnabled(switches) ==> (show <==> certificateIsValid && CertificatesViewable(course, now))
    ensures show ==> certificateIsValid
  {
    if AutoGenerationEnabled(switches) then CertificatesViewable(course, now) && certificateIsValid
    else certificateIsValid
  }

  /** The expectation of `test_can_show_view_certificate_button_self_paced`: in a self-paced
      course the button shows exactly for a valid certificate of a verified enrollment. */
  lemma SelfPacedButtonTestCases(feature: bool, course: Course, now: int, enrollmentMode: string,
                                 verifiedModes: set<string>, downloadable: bool)
    requires course.selfPaced
    ensures CanShowViewCertificateButton(Switches(feature, feature), course, now,
                                         HasValidCertificate(enrollmentMode, verifiedModes, downloadable))
            <==> downloadable && enrollmentMode in verifiedModes
  {
  }

  /** With `has_valid_certificate` as written, the same self-paced course shows the button for
      every downloadable certificate, whatever the enrollment mode. */
  lemma SelfPacedButtonAsWritten(feature: bool, course: Course, now: int, enrollmentMode: string,
                                 verifiedModes: set<string>, downloadable: bool)
    requires course.selfPaced
    ensures CanShowViewCertificateButton(Switches(feature, feature), course, now,
                                         HasValidCertificateAsWritten(enrollmentMode, verifiedModes, downloadable))
            <==> downloadable
  {
  }
}

=== FILE: pyint.dfy ===
/** Python 2's `int(text)` on a decimal string and `str(n)` on an integer, the two conversions
    between GET parameters and page numbers. Integers are unbounded, as Python 2 longs are. */
module PyInt {
  import opened Wrappers

  /** The ASCII white-space characters `int()` strips from both ends. */
  predicate IsSpace(c: char)
  {
    c == ' ' || c == '\t' || c == '\n' || c == '\r' || c == 11 as char || c == 12 as char
  }

  function StripStart(s: string): string
    decreases |s|
  {
    if |s| > 0 && IsSpace(s[0]) then StripStart(s[1..]) else s
  }

  function StripEnd(s: string): string
    decreases |s|
  {
    if |s| > 0 && IsSpace(s[|s| - 1]) then StripEnd(s[..|s| - 1]) else s
  }

  function Strip(s: string): string
  {
    StripEnd(StripStart(s))
  }

  predicate IsDigit(c: char)
  {
    '0' <= c <= '9'
  }

  predicate AllDigits(s: string)
  {
    forall i :: 0 <= i < |s| ==> IsDigit(s[i])
  }

  /** The value of a run of decimal digits, most significant first. */
  function DigitsValue(s: string): nat
    requires AllDigits(s)
    decreases |s|
  {
    if |s| == 0 then 0 else 10 * DigitsValue(s[..|s| - 1]) + (s[|s| - 1] as int - '0' as int)
  }

  /** `int(text)`: optional surrounding white space, an optional sign, then at least one digit;
      `None` where Python raises ValueError. */
  function ParseInt(text: string): (r: Option<int>)
    ensures Strip(text) == "" ==> r.None?
    ensures Strip(text) == "-" || Strip(text) == "+" ==> r.None?
    ensures |text| > 0 && AllDigits(text) ==> r == Some(DigitsValue(text))
    ensures r.Some? && r.value < 0 ==> Strip(text)[0] == '-'
  {
    assert |text| > 0 && AllDigits(text) ==> Strip(text) == text by {
      if |text| > 0 && AllDigits(text) {
        StripUnpadded(text);
      }
    }
    var t := Strip(text);
    if |t| == 0 then None
    else if t[0] == '-' || t[0] == '+' then
      if |t| > 1 && AllDigits(t[1..]) then
        var magnitude: int := DigitsValue(t[1..]);
        Some(if t[0] == '-' then -magnitude else magnitude)
      else None
    else if AllDigits(t) then Some(DigitsValue(t))
    else None
  }

  function DigitChar(d: nat): char
    requires d < 10
  {
    ('0' as int + d) as char
  }

  /** The decimal digits of `n` without leading zeros. */
  function Decimal(n: nat): (s: string)
    ensures |s| >= 1 && AllDigits(s)
    decreases n
  {
    if n < 10 then [DigitChar(n)] else Decimal(n / 10) + [DigitChar(n % 10)]
  }

  /** `str(i)` */
  function IntToString(i: int): string
  {
    if i < 0 then "-" + Decimal(-i) else Decimal(i)
  }

  lemma {:induction false} DecimalValue(n: nat)
    ensures DigitsValue(Decimal(n)) == n
    decreases n
  {
    if n >= 10 {
      var s := Decimal(n);
      assert s[..|s| - 1] == Decimal(n / 10);
      DecimalValue(n / 10);
    }
  }

  /** A string with no white space at either end is its own strip. */
  lemma StripUnpadded(s: string)
    requires |s| > 0 && !IsSpace(s[0]) && !IsSpace(s[|s| - 1])
    ensures Strip(s) == s
  {
  }

  /** `int(str(i)) == i`: a page number written by `str` is read back unchanged. */
  lemma ParseIntOfString(i: int)
    ensures ParseInt(IntToString(i)) == Some(i)
  {
    var s := IntToString(i);
    StripUnpadded(s);
    if i < 0 {
      assert s[1..] == Decimal(-i);
      DecimalValue(-i);
    } else {
      DecimalValue(i);
    }
  }

  /** `int()` raises ValueError for text with any character other than a digit after the
      white space and an optional leading sign: letters, a decimal point, trailing junk. */
  lemma ParseIntRejectsNonDigit(text: string, i: nat)
    requires i < |Strip(text)| && !IsDigit(Strip(text)[i])
    requires i > 0 || (Strip(text)[0] != '-' && Strip(text)[0] != '+')
    ensures ParseInt(text).None?
  {
    var t := Strip(text);
    if |t| > 0 && (t[0] == '-' || t[0] == '+') {
      assert t[1..][i - 1] == t[i];
    }
  }

  predicate AllSpace(s: string)
  {
    forall i :: 0 <= i < |s| ==> IsSpace(s[i])
  }

  /** Leading white space is all that `StripStart` removes. */
  lemma {:induction false} StripStartSpaces(before: string, x: string)
    requires AllSpace(before) && |x| > 0 && !IsSpace(x[0])
    ensures StripStart(before + x) == x
    decreases |before|
  {
    if |before| > 0 {
      assert (before + x)[1..] == before[1..] + x;
      StripStartSpaces(before[1..], x);
    } else {
      assert before + x == x;
    }
  }

  /** Trailing white space is all that `StripEnd` removes. */
  lemma {:induction false} StripEndSpaces(x: string, after: string)
    requires |x| > 0 && !IsSpace(x[|x| - 1]) && AllSpace(after)
    ensures StripEnd(x + after) == x
    decreases |after|
  {
    if |after| > 0 {
      var s := x + after;
      assert s[..|s| - 1] == x + after[..|after| - 1];
      StripEndSpaces(x, after[..|after| - 1]);
    } else {
      assert x + after == x;
    }
  }

  /** `int()` ignores white space around the number: `int(" 7 ") == 7`. */
  lemma ParseIntPadded(before: string, i: int, after: string)
    requires AllSpace(before) && AllSpace(after)
    ensures ParseInt(before + IntToString(i) + after) == Some(i)
  {
    var x := IntToString(i);
    assert !IsSpace(x[0]) && !IsSpace(x[|x| - 1]);
    assert before + x + after == before + (x + after);
    StripStartSpaces(before, x + after);
    StripEndSpaces(x, after);
    assert Strip(before + x + after) == x;
    ParseIntOfString(i);
    StripUnpadded(x);
  }

  /** `int()` accepts an explicit plus sign: `int("+7") == 7`. */
  lemma ParseIntPlusSign(n: nat)
    ensures ParseInt("+" + IntToString(n)) == Some(n)
  {
    var t := "+" + IntToString(n);
    StripUnpadded(t);
    assert t[1..] == Decimal(n);
    DecimalValue(n);
  }
}

=== FILE: text.dfy ===
/** String helpers with the meaning of the Python built-ins the asset view relies on:
    `sep.join(parts)`, `s.split(sep)` for a one-character separator, `s.lower()` on
    ASCII letters, and the substring test `needle in hay`. */
module Text {

  /** `sep.join(parts)` */
  function Join(sep: string, parts: seq<string>): string
    decreases |parts|
  {
    if |parts| == 0 then ""
    else if |parts| == 1 then parts[0]
    else parts[0] + sep + Join(sep, parts[1..])
  }

  /** Sum of the lengths of `parts`. */
  function TotalLength(parts: seq<string>): nat
    decreases |parts|
  {
    if |parts| == 0 then 0 else |parts[0]| + TotalLength(parts[1..])
  }

  /** A join of n >= 1 parts holds the parts and exactly n - 1 separators. */
  lemma {:induction false} JoinLength(sep: string, parts: seq<string>)
    requires |parts| >= 1
    ensures |Join(sep, parts)| == TotalLength(parts) + (|parts| - 1) * |sep|
    decreases |parts|
  {
    if |parts| > 1 {
      JoinLength(sep, parts[1..]);
      assert (|parts| - 1) * |sep| == |sep| + (|parts| - 2) * |sep|;
    }
  }

  /** Number of occurrences of `c` in `s`. */
  function Count(s: string, c: char): nat
    decreases |s|
  {
    if |s| == 0 then 0 else (if s[0] == c then 1 else 0) + Count(s[1..], c)
  }

  /** `s.split(sep)`: the maximal separator-free runs of `s`, one more than there are separators. */
  function Split(s: string, sep: char): (pieces: seq<string>)
    ensures |pieces| == Count(s, sep) + 1
    ensures forall i :: 0 <= i < |pieces| ==> sep !in pieces[i]
    decreases |s|
  {
    if |s| == 0 then [""]
    else
      var rest := Split(s[1..], sep);
      if s[0] == sep then [""] + rest
      else [[s[0]] + rest[0]] + rest[1..]
  }

  /** Joining the pieces of a split with the same separator gives back the string. */
  lemma {:induction false} JoinSplit(s: string, sep: char)
    ensures Join([sep], Split(s, sep)) == s
    decreases |s|
  {
    if |s| > 0 {
      var rest := Split(s[1..], sep);
      JoinSplit(s[1..], sep);
      if s[0] == sep {
        assert ([""] + rest)[1..] == rest;
        assert s == [sep] + s[1..];
      } else {
        var pieces := [[s[0]] + rest[0]] + rest[1..];
        assert s == [s[0]] + s[1..];
        if |rest| > 1 {
          assert pieces[1..] == rest[1..];
        }
      }
    }
  }

  /** A string without the separator splits into itself. */
  lemma {:induction false} SplitWithoutSeparator(a: string, sep: char)
    requires sep !in a
    ensures Split(a, sep) == [a]
    decreases |a|
  {
    if |a| > 0 {
      SplitWithoutSeparator(a[1..], sep);
      assert [a[0]] + a[1..] == a;
    }
  }

  /** Splitting `a + sep + b` with `a` separator-free yields `a` and then the pieces of `b`. */
  lemma {:induction false} SplitAtFirstSeparator(a: string, b: string, sep: char)
    requires sep !in a
    ensures Split(a + [sep] + b, sep) == [a] + Split(b, sep)
    decreases |a|
  {
    var s := a + [sep] + b;
    if |a| == 0 {
      assert s == [sep] + b;
      assert s[1..] == b;
    } else {
      assert s[0] == a[0];
      assert s[1..] == a[1..] + [sep] + b;
      SplitAtFirstSeparator(a[1..], b, sep);
      assert [a[0]] + a[1..] == a;
    }
  }

  /** Splitting a join of separator-free parts gives back the parts. */
  lemma {:induction false} SplitJoin(parts: seq<string>, sep: char)
    requires |parts| >= 1
    requires forall i :: 0 <= i < |parts| ==> sep !in parts[i]
    ensures Split(Join([sep], parts), sep) == parts
    decreases |parts|
  {
    if |parts| == 1 {
      SplitWithoutSeparator(parts[0], sep);
    } else {
      SplitJoin(parts[1..], sep);
      SplitAtFirstSeparator(parts[0], Join([sep], parts[1..]), sep);
      assert parts == [parts[0]] + parts[1..];
    }
  }

  /** Lower-cases an ASCII capital letter; every other character is left alone. */
  function LowerChar(c: char): char
  {
    if 'A' <= c <= 'Z' then (c as int - 'A' as int + 'a' as int) as char else c
  }

  /** `s.lower()` restricted to ASCII letters. */
  function Lower(s: string): (r: string)
    ensures |r| == |s|
    ensures forall i :: 0 <= i < |s| ==> r[i] == LowerChar(s[i])
    decreases |s|
  {
    if |s| == 0 then "" else [LowerChar(s[0])] + Lower(s[1..])
  }

  /** `needle in hay` for strings: `needle` occurs in `hay` at some offset. */
  predicate Contains(hay: string, needle: string)
    decreases |hay|
  {
    needle <= hay || (|hay| > 0 && Contains(hay[1..], needle))
  }

  /** A string shorter than the needle cannot contain it. */
  lemma {:induction false} ContainsTooShort(hay: string, needle: string)
    requires |hay| < |needle|
    ensures !Contains(hay, needle)
    decreases |hay|
  {
    if |hay| > 0 {
      ContainsTooShort(hay[1..], needle);
    }
  }

  /** A string contains each of its infixes. */
  lemma {:induction false} ContainsInfix(a: string, needle: string, b: string)
    ensures Contains(a + needle + b, needle)
    decreases |a|
  {
    if |a| == 0 {
      assert a + needle + b == needle + b;
    } else {
      ContainsInfix(a[1..], needle, b);
      assert (a + needle + b)[1..] == a[1..] + needle + b;
    }
  }

  /** A string ends with, and so contains, any suffix it is built with. */
  lemma ContainsSuffix(a: string, needle: string)
    ensures Contains(a + needle, needle)
  {
    ContainsInfix(a, needle, "");
    assert a + needle + "" == a + needle;
  }

  /** Whatever a string contains, the string with a prefix also contains. */
  lemma {:induction false} ContainsAfterPrefix(a: string, hay: string, needle: string)
    requires Contains(hay, needle)
    ensures Contains(a + hay, needle)
    decreases |a|
  {
    if |a| > 0 {
      ContainsAfterPrefix(a[1..], hay, needle);
      assert (a + hay)[1..] == a[1..] + hay;
    } else {
      assert a + hay == hay;
    }
  }

  /** A join contains each of the parts it joins. */
  lemma {:induction false} JoinContainsPart(sep: string, parts: seq<string>, i: nat)
    requires i < |parts|
    ensures Contains(Join(sep, parts), parts[i])
    decreases |parts|
  {
    if |parts| == 1 {
      ContainsInfix("", parts[0], "");
      assert "" + parts[0] + "" == parts[0];
    } else if i == 0 {
      ContainsInfix("", parts[0], sep + Join(sep, parts[1..]));
      assert "" + parts[0] + (sep + Join(sep, parts[1..])) == parts[0] + sep + Join(sep, parts[1..]);
    } else {
      JoinContainsPart(sep, parts[1..], i - 1);
      ContainsAfterPrefix(parts[0] + sep, Join(sep, parts[1..]), parts[i]);
    }
  }

  /** The same for every part at once. */
  lemma JoinContainsParts(sep: string, parts: seq<string>)
    ensures forall i :: 0 <= i < |parts| ==> Contains(Join(sep, parts), parts[i])
  {
    forall i | 0 <= i < |parts|
      ensures Contains(Join(sep, parts), parts[i])
    {
      JoinContainsPart(sep, parts, i);
    }
  }
}

=== FILE: wrappers.dfy ===
/** Failure-compatible Option and Result types shared by the model. */
module Wrappers {

  datatype Option<+T> = None | Some(value: T) {

    /** The encapsulated value, or `default` when there is none. */
    function GetOr(default: T): T
    {
      match this
      case Some(v) => v
      case None => default
    }
  }

  /** The outcome of an operation that may raise: Python exceptions become `Failure`. */
  datatype Result<+T, +E> = Success(value: T) | Failure(error: E) {

    predicate IsFailure()
    {
      Failure?
    }

    function PropagateFailure<U>(): Result<U, E>
      requires Failure?
    {
      Failure(error)
    }

    function Extract(): T
      requires Success?
    {
      value
    }
  }
}
